=== FILE: README.md ===
# Repository clone script — Dafny model

This project models the decision logic of `install.py`. The script lists the
repositories of a GitHub organisation. It then clones each one, and its wiki
if it has one, into the working directory, and skips any folder that already
exists.

The model has six modules:

- `Wrappers` holds the `Option` type used for the wiki URL.
- `Strings` models Python's `str.replace(old, new)` for a non-empty `old` as
  `ReplaceAll`. Every non-overlapping occurrence is replaced, scanning left
  to right.
- `Wiki` holds the wiki URL, `ssh_url.replace('.git', '.wiki.git')`, and its
  inverse.
- `Repos` holds the listing record and the `Repository` dataclass, the
  reserved name `root`, and the filter-map of `get_repos`.
- `Cloning` holds `run`, `clone_repo` and `clone_repo_wiki`, and the main
  loop in two forms:
  - `Plan` decides against a fixed set of entries. This is what test mode
    sees.
  - `Sync` runs against a live set of entries. There, a clone that runs and
    succeeds adds its folder before the next existence check.
- `Install` composes the listing and the loop into one run (`InstallAll`).

The file system is a `set<string>` of entry names. Test mode is a boolean
parameter instead of the global `TEST`. The outcome of each `git clone` is a
parameter `succeeds: string -> bool`, keyed by the URL.

Three behaviours of the script are easy to misread:

- A single substitution of the `.git` suffix is the natural reading of the
  wiki URL. The code replaces every `.git` in the URL.
  - `Wiki.WikiUrlRewritesEveryOccurrence` shows what this does to a
    repository named `foo.github.io`.
  - `Wiki.WikiUrlOfPlainBase` shows that the two readings agree when `.git`
    occurs only as the suffix.
- The wiki step is skipped not only when the wiki URL is `None`. The test
  `if repo.git_wiki_url:` also skips an empty wiki URL. That happens when
  `has_wiki` is set and `ssh_url` is empty.
- Test mode is not always a faithful preview of a live run. It is one when
  no folder is decided about twice:
  - `Cloning.LiveRunMatchesPlan` proves it under that condition.
  - `Cloning.LiveRunCanDifferFromDryRun` gives a listing where the live run
    and the preview differ.

## Model

| member | source | states |
|---|---|---|
| `Strings.ReplaceAll` | install.py:48 | Python's `str.replace` for a non-empty pattern; a definition without a contract, whose properties are stated by `Strings.ReplaceAllAbsent`, `Strings.CountPositiveIffContains`, `Strings.ReplaceAllLength` and `Strings.ReplaceAllUnchangedIff` |
| `Strings.ReplaceAllAbsent` | install.py:48 | `str.replace` returns its input unchanged when the pattern does not occur |
| `Strings.CountPositiveIffContains` | install.py:48 | the left-to-right scan of `str.replace` rewrites at least one occurrence exactly when the pattern occurs somewhere |
| `Strings.ReplaceAllLength` | install.py:48 | each rewritten occurrence changes the length by the difference of the two lengths |
| `Strings.ReplaceAllUnchangedIff` | install.py:48 | a replacement of a different length leaves the string unchanged if and only if the pattern does not occur in it |
| `Wiki.WikiUrl` | install.py:48 | `ssh_url.replace('.git', '.wiki.git')`; a definition without a contract, whose properties are stated by `Wiki.WikiUrlRoundTrip`, `Wiki.WikiUrlUnchangedIff`, `Wiki.WikiUrlOfPlainBase` and `Wiki.WikiUrlRewritesEveryOccurrence` |
| `Wiki.WikiUrlUnchangedIff` | install.py:48 | the wiki URL equals the SSH URL exactly when the SSH URL contains no `.git`; it grows by five characters per `.git` |
| `Wiki.WikiUrlRoundTrip` | install.py:48 | replacing `.wiki.git` back by `.git` in the wiki URL recovers the SSH URL, so the wiki URL determines the SSH URL |
| `Wiki.WikiUrlOfPlainBase` | install.py:48 | when `.git` occurs only as the suffix, the wiki URL is the suffix rewrite `<base>.wiki.git` |
| `Wiki.WikiUrlOfPlainPrefix` | install.py:48 | a prefix without `.git` is copied, the `.git` that ends it becomes `.wiki.git`, and the rest is rewritten on its own |
| `Wiki.WikiUrlRewritesEveryOccurrence` | install.py:48 | an inner `.git` is rewritten too: for any `a` and `b` without `.git` (such as `git@github.com:modular-server-manager/foo` and `hub.io`), `<a>.git<b>.git` becomes `<a>.wiki.git<b>.wiki.git` |
| `Repos.Kept` | install.py:43-44 | the filter: not archived and not named `root`; a predicate without a contract, whose use is stated by `Repos.KeptIndices` and `Repos.GetReposSelectsKept` |
| `Repos.Describe` | install.py:45-49 | the descriptor keeps the name and takes the SSH URL verbatim; the wiki URL is present if and only if `has_wiki`, and is then `WikiUrl(ssh_url)`; it maps back to the SSH URL; it equals the SSH URL exactly when that has no `.git` |
| `Repos.GetRepos` | install.py:42-51 | at most one descriptor per record, and none is named `root` |
| `Repos.KeptIndices` | install.py:43-44 | the kept positions are strictly increasing and are exactly the non-archived records not named `root` |
| `Repos.GetReposSelectsKept` | install.py:42-50 | the output is an order-preserving filter-map: descriptor k describes the k-th kept record, one per kept record |
| `Repos.ThreeRecordScenario` | install.py:42-50 | from `alpha` (wiki), `beta` (archived) and `root`, only `alpha` is described, with wiki URL `<base>.wiki.git` |
| `Cloning.Run` | install.py:54-58 | `run` keeps the command and executes it exactly when not in test mode, printing it otherwise |
| `Cloning.CloneRepo` | install.py:61-67 | the main folder is the repository name; the clone is of `git_url` and happens if and only if the folder is absent |
| `Cloning.CloneRepoWiki` | install.py:69-76 | no action at all if and only if the wiki URL is `None` or empty; otherwise one decision on `<name>.wiki`, a clone of the wiki URL if and only if that folder is absent |
| `Cloning.Clones` | install.py:61-76 | the clone decisions among a list of decisions: every one of them and nothing else |
| `Cloning.ClonesConcat` | install.py:61-76 | selecting the clone decisions keeps their order: it distributes over concatenation |
| `Cloning.Script` | install.py:54-76 | one effect per clone decision, in decision order: the k-th effect is `run` of `git clone <url>` for the k-th clone decision; every effect is executed if and only if not in test mode |
| `Cloning.Apply` | install.py:58 | the modelling assumption that a clone creates its folder: a clone that runs outside test mode and succeeds adds exactly its folder; every other decision leaves the entries unchanged |
| `Cloning.Sync` | install.py:86-90 | a run only adds entries; in test mode the entries are unchanged (what it adds is stated by `Cloning.SyncCreatesOnlyClonedFolders`) |
| `Cloning.Plan` | install.py:88-90 | the loop against fixed entries takes one or two decisions per repository; its order and decisions are stated by `Cloning.PlanOrder` and `Cloning.PlanDecisions` |
| `Cloning.SyncAddsCreated` | install.py:58-90 | the entries after a run are the starting entries plus the folders of the successful clones |
| `Cloning.SyncCreatesOnlyClonedFolders` | install.py:58-90 | every entry after a run was there before or is a folder the run decided about (the exact entries are stated by `Cloning.SyncAddsCreated`) |
| `Cloning.PlanConcat` | install.py:88-90 | the loop's decisions for a concatenated list are the concatenation of the decisions |
| `Cloning.PlanOrder` | install.py:88-90 | repositories are handled in list order, and each one's main decision directly precedes its wiki decision |
| `Cloning.PlanDecisions` | install.py:61-76 | against fixed entries, the loop decides once about each folder of `Folders(repos)` in order, and clones exactly the absent ones |
| `Cloning.PlanClonesNothingIff` | install.py:61-76 | against fixed entries, no clone is planned if and only if every folder is already present |
| `Cloning.PlanIgnoresOtherEntries` | install.py:63-72 | only the entries named after a repository or its wiki influence the decisions |
| `Cloning.DryRunIsPlan` | install.py:54-58 | test mode takes the fixed-entries decisions and leaves the entries unchanged |
| `Cloning.DryRunSameCommands` | install.py:54-58 | test mode emits the same commands in the same order, none executed |
| `Cloning.SyncFolders` | install.py:88-90 | whatever the clones' outcomes and the mode, the live loop decides once about each folder in order, so a failed clone does not stop later repositories |
| `Cloning.LiveRunMatchesPlan` | install.py:54-90 | when no folder is decided about twice, the live run takes the same decisions as test mode, whatever the clones' outcomes |
| `Cloning.LiveRunCanDifferFromDryRun` | install.py:69-76 | with `a` (wiki) followed by a repository named `a.wiki`, the live run skips `a.wiki` while test mode plans to clone it |
| `Cloning.LiveRunCreatesFolders` | install.py:58-76 | after a live run in which every clone succeeds, every decided folder exists, when git names each cloned folder as the script checks for it |
| `Cloning.SyncWhenAllPresent` | install.py:61-76 | when every folder exists, the loop only skips and changes nothing, in either mode |
| `Cloning.SecondRunClonesNothing` | install.py:86-90 | after a live run whose clones all succeed, a second run clones nothing and leaves the entries unchanged, when git names each cloned folder as the script checks for it |
| `Cloning.SyncActionsFor` | install.py:61-76 | every decision concerns a listed repository and clones only from its SSH URL or its wiki URL |
| `Install.InstallAll` | install.py:86-91 | the printed count is the number of kept records; the decisions cover the descriptors' folders in order; test mode changes no entries, takes the fixed-entries decisions and executes nothing |
| `Install.InstallActsOnlyForKeptRecords` | install.py:42-90 | no archived and no `root` record leads to any decision; each decision concerns a kept record and clones only from its URLs |
| `Install.InstallTwiceClonesNothing` | install.py:86-90 | running the script again after a fully successful live run clones nothing, runs no command and creates nothing, when git names each cloned folder as the script checks for it |
| `Cloning.ApplyAt` | install.py:58 | with git naming the folder after the URL: a clone that runs outside test mode and succeeds adds exactly `folderOf(url)`; every other decision leaves the entries unchanged |
| `Cloning.SyncAtIsSync` | install.py:58-90 | when git names every folder as the script checks for it (`<name>`, `<name>.wiki`), the loop with git's naming takes the same decisions and leaves the same entries as `Cloning.Sync` |
| `Cloning.SecondRunClonesNothingAt` | install.py:86-90 | with git's naming, a second run after a fully successful one clones nothing and changes nothing, provided git names every folder as the script checks for it |
| `Cloning.SecondRunReclonesWiki` | install.py:69-76 | when git names a wiki's folder other than `<name>.wiki`, a second run after a fully successful one skips the repository but clones its wiki again: the script is not idempotent for such a repository |
| `Install.ScriptOfSkips` | install.py:54-67 | when every decision is a skip, `run` is never called |
| `Install.ThreeRecordRun` | install.py:42-90 | the three-record scenario run live in an empty directory decides to clone `alpha` and `alpha.wiki`, executes exactly `git clone <base>.git` and `git clone <base>.wiki.git` in that order, and leaves exactly those two folders |

## Left out

- HTTP request, headers and `urllib` (install.py:31-41): this is network
  I/O. The parsed listing is the `records` parameter.
- JSON decoding (install.py:41): the records are assumed well-formed, with
  the four fields the script reads.
- `subprocess.run` and `git clone` (install.py:58): these are an external
  process. Each clone's outcome is the parameter `succeeds`. A successful
  clone is assumed to create exactly the folder the script checked for.
  Git actually names the folder after the URL. For a wiki URL with more than
  one rewritten `.git`, git's folder name differs from `<name>.wiki`: the
  wiki of `foo.github.io` lands in `foo.wiki.github.io.wiki`.
  `Cloning.LiveRunCreatesFolders`, `Cloning.SecondRunClonesNothing` and
  `Install.InstallTwiceClonesNothing` do not hold for such a repository.
  `Cloning.SyncAt` takes git's naming as a parameter `folderOf`;
  `Cloning.SyncAtIsSync` says when it agrees with `Cloning.Sync`, and
  `Cloning.SecondRunReclonesWiki` shows that otherwise every later run
  clones the wiki again. Git's naming rule itself is not modelled.
- A `git` that cannot be started (install.py:58): `subprocess.run` then
  raises, which ends the loop and the run. The model covers only a clone
  that starts and exits with a failure status, which the loop ignores.
  `Cloning.SyncFolders` and `succeeds` speak of that case alone.
- `os.path.exists` (install.py:63, 72): this is membership in the set of
  entry names. Files and directories are not told apart, as in the script.
- `argparse` and the assignment of the global `TEST` (install.py:80-84):
  this is command-line plumbing. Test mode is a parameter.
- Messages and ANSI colours (install.py:56, 64, 66, 73, 75, 87, 91): these
  are cosmetic. Skip and clone decisions stand for the messages.
- Python's `str.replace` with an empty pattern: the script only replaces the
  non-empty `.git`, so `ReplaceAll` requires a non-empty pattern.
- Pagination of the listing: the script reads one page, and the model takes
  whatever records it is given.

=== FILE: cloning.dfy ===
/** The clone loop of `install.py`: `clone_repo`, `clone_repo_wiki` and
    `run`, and the per-repository order of the main loop. The file system is
    the set of entry names in the working directory; test mode is a
    parameter. */
module Cloning {
  import opened Wrappers
  import opened Repos

  /** What the script decides for one destination folder: skip it because
      it exists, or clone `url` into it. */
  datatype Action = Skip(folder: string) | Clone(folder: string, url: string)

  /** What `run` does with a command: execute it, or (test mode) print it. */
  datatype Effect = Effect(command: seq<string>, executed: bool)

  /** The outcome of the live loop: the decisions taken, in order, and the
      entries present afterwards. */
  datatype Outcome = Outcome(actions: seq<Action>, entries: set<string>)

  /** The folder the wiki of `name` is cloned into. */
  function WikiFolder(name: string): string {
    name + ".wiki"
  }

  /** Python truthiness of `git_wiki_url`: `None` and `""` are false. */
  predicate Truthy(url: Option<string>) {
    url.Some? && url.value != ""
  }

  function CloneCommand(url: string): seq<string> {
    ["git", "clone", url]
  }

  /** `run`: in test mode the command is printed, otherwise executed. */
  function Run(command: seq<string>, test: bool): (e: Effect)
    ensures e.command == command
    ensures e.executed <==> !test
  {
    Effect(command, !test)
  }

  /** `clone_repo`: existence of the folder named after the repository alone
      decides; nothing checks that it is a clone. */
  function CloneRepo(repo: Repository, entries: set<string>): (a: Action)
    ensures a.folder == repo.name
    ensures a.Clone? <==> repo.name !in entries
    ensures a.Clone? ==> a.url == repo.gitUrl
  {
    if repo.name in entries then Skip(repo.name) else Clone(repo.name, repo.gitUrl)
  }

  /** `clone_repo_wiki`: nothing at all without a truthy wiki URL, otherwise
      the same existence test on `<name>.wiki`. */
  function CloneRepoWiki(repo: Repository, entries: set<string>): (acts: seq<Action>)
    ensures acts == [] <==> !Truthy(repo.gitWikiUrl)
    ensures |acts| <= 1
    ensures forall a :: a in acts ==>
              && a.folder == WikiFolder(repo.name)
              && (a.Clone? <==> WikiFolder(repo.name) !in entries)
              && (a.Clone? ==> a.url == repo.gitWikiUrl.value)
  {
    if !Truthy(repo.gitWikiUrl) then []
    else if WikiFolder(repo.name) in entries then [Skip(WikiFolder(repo.name))]
    else [Clone(WikiFolder(repo.name), repo.gitWikiUrl.value)]
  }

  /** The folders the loop decides about for one repository, in order: its
      own, then its wiki's when the wiki URL is truthy. */
  function RepoFolders(repo: Repository): seq<string> {
    [repo.name] + (if Truthy(repo.gitWikiUrl) then [WikiFolder(repo.name)] else [])
  }

  function Folders(repos: seq<Repository>): seq<string>
    decreases |repos|
  {
    if |repos| == 0 then [] else RepoFolders(repos[0]) + Folders(repos[1..])
  }

  function FoldersOf(actions: seq<Action>): seq<string> {
    seq(|actions|, k requires 0 <= k < |actions| => actions[k].folder)
  }

  /** The decisions for one repository: main clone first, then the wiki. */
  function RepoPlan(repo: Repository, entries: set<string>): seq<Action> {
    [CloneRepo(repo, entries)] + CloneRepoWiki(repo, entries)
  }

  /** The decisions of the main loop against a fixed set of entries, which is
      what test mode sees since it creates nothing. */
  function Plan(repos: seq<Repository>, entries: set<string>): (p: seq<Action>)
    ensures |repos| <= |p| <= 2 * |repos|
    decreases |repos|
  {
    if |repos| == 0 then [] else RepoPlan(repos[0], entries) + Plan(repos[1..], entries)
  }

  /** The clone decisions among `actions`, in order. */
  function Clones(actions: seq<Action>): (cs: seq<Action>)
    ensures |cs| <= |actions|
    ensures forall a :: a in cs ==> a.Clone? && a in actions
    ensures forall a :: a in actions && a.Clone? ==> a in cs
    decreases |actions|
  {
    if |actions| == 0 then []
    else (if actions[0].Clone? then [actions[0]] else []) + Clones(actions[1..])
  }

  /** Selecting the clone decisions keeps their order: it distributes over
      concatenation. */
  lemma {:induction false} ClonesConcat(x: seq<Action>, y: seq<Action>)
    ensures Clones(x + y) == Clones(x) + Clones(y)
    decreases |x|
  {
    if |x| == 0 {
      assert x + y == y;
    } else {
      var h := if x[0].Clone? then [x[0]] else [];
      assert (x + y)[0] == x[0] && (x + y)[1..] == x[1..] + y;
      calc {
        Clones(x + y);
        h + Clones(x[1..] + y);
        { ClonesConcat(x[1..], y); }
        h + (Clones(x[1..]) + Clones(y));
        (h + Clones(x[1..])) + Clones(y);
      }
    }
  }

  /** The effects `run` produces for a list of decisions: one
      `git clone <url>` per clone decision, in decision order. */
  function Script(actions: seq<Action>, test: bool): (effects: seq<Effect>)
    ensures |effects| == |Clones(actions)|
    ensures forall k :: 0 <= k < |effects| ==>
              effects[k] == Run(CloneCommand(Clones(actions)[k].url), test)
    ensures forall e :: e in effects ==> (e.executed <==> !test)
    decreases |actions|
  {
    if |actions| == 0 then []
    else
      (if actions[0].Clone? then [Run(CloneCommand(actions[0].url), test)] else [])
      + Script(actions[1..], test)
  }

  /** The entries after a decision, when a successful `git clone` creates
      the folder the script checked for; in test mode nothing is created. */
  function Apply(a: Action, entries: set<string>, test: bool, succeeds: string -> bool): (e: set<string>)
    ensures entries <= e <= entries + {a.folder}
    ensures e != entries ==> a.Clone? && !test && succeeds(a.url)
    ensures a.Clone? && !test && succeeds(a.url) ==> e == entries + {a.folder}
  {
    if a.Clone? && !test && succeeds(a.url) then entries + {a.folder} else entries
  }

  /** The main loop run against the live file system: each clone that runs
      and succeeds adds its folder before the next existence check. A failed
      clone adds nothing and the loop goes on. */
  function Sync(repos: seq<Repository>, entries: set<string>, test: bool, succeeds: string -> bool): (o: Outcome)
    ensures entries <= o.entries
    ensures test ==> o.entries == entries
    decreases |repos|
  {
    if |repos| == 0 then Outcome([], entries)
    else
      var main := CloneRepo(repos[0], entries);
      var e1 := Apply(main, entries, test, succeeds);
      var wiki := CloneRepoWiki(repos[0], e1);
      var e2 := if wiki == [] then e1 else Apply(wiki[0], e1, test, succeeds);
      var rest := Sync(repos[1..], e2, test, succeeds);
      Outcome([main] + wiki + rest.actions, rest.entries)
  }

  // ---------------------------------------------------------------------------
  // The plan: order and decisions
  // ---------------------------------------------------------------------------

  /** The loop is a concatenation over the repositories. */
  lemma {:induction false} PlanConcat(a: seq<Repository>, b: seq<Repository>, entries: set<string>)
    ensures Plan(a + b, entries) == Plan(a, entries) + Plan(b, entries)
    decreases |a|
  {
    if |a| == 0 {
      assert a + b == b;
    } else {
      assert (a + b)[1..] == a[1..] + b;
      PlanConcat(a[1..], b, entries);
    }
  }

  lemma {:induction false} PlanCons(r: Repository, rest: seq<Repository>, entries: set<string>)
    ensures Plan([r] + rest, entries)
            == [CloneRepo(r, entries)] + CloneRepoWiki(r, entries) + Plan(rest, entries)
  {
    assert ([r] + rest)[0] == r && ([r] + rest)[1..] == rest;
  }

  lemma Regroup<T>(a: seq<T>, b: seq<T>, c: seq<T>, d: seq<T>)
    ensures a + (b + c + d) == a + b + c + d
  {
  }

  /** Repositories are handled in list order, and each one's main decision
      comes immediately before its wiki decision. */
  lemma {:induction false} PlanOrder(repos: seq<Repository>, entries: set<string>, i: nat)
    requires i < |repos|
    ensures Plan(repos, entries) ==
              Plan(repos[..i], entries)
              + [CloneRepo(repos[i], entries)] + CloneRepoWiki(repos[i], entries)
              + Plan(repos[i + 1..], entries)
  {
    var t := [repos[i]] + repos[i + 1..];
    var front, back := Plan(repos[..i], entries), Plan(repos[i + 1..], entries);
    var main, wiki := CloneRepo(repos[i], entries), CloneRepoWiki(repos[i], entries);
    assert Plan(repos, entries) == front + Plan(t, entries) by {
      assert repos == repos[..i] + t;
      PlanConcat(repos[..i], t, entries);
    }
    PlanCons(repos[i], repos[i + 1..], entries);
    Regroup(front, [main], wiki, back);
  }

  /** Against a fixed set of entries, the loop decides once about each of
      `Folders(repos)`, in order, and clones exactly the absent ones. */
  lemma {:induction false} PlanDecisions(repos: seq<Repository>, entries: set<string>)
    ensures FoldersOf(Plan(repos, entries)) == Folders(repos)
    ensures forall k :: 0 <= k < |Plan(repos, entries)| ==>
              (Plan(repos, entries)[k].Clone? <==> Plan(repos, entries)[k].folder !in entries)
    decreases |repos|
  {
    if |repos| > 0 {
      PlanDecisions(repos[1..], entries);
      var head := RepoPlan(repos[0], entries);
      var rest := Plan(repos[1..], entries);
      assert FoldersOf(head) == RepoFolders(repos[0]);
      assert FoldersOf(head + rest) == FoldersOf(head) + FoldersOf(rest);
      forall k | 0 <= k < |head + rest|
        ensures (head + rest)[k].Clone? <==> (head + rest)[k].folder !in entries
      {
        if k >= |head| {
          assert (head + rest)[k] == rest[k - |head|];
        }
      }
    }
  }

  /** Idempotence against a fixed set of entries: the plan clones nothing
      exactly when every folder it decides about is already present. */
  lemma {:induction false} PlanClonesNothingIff(repos: seq<Repository>, entries: set<string>)
    ensures (forall k :: 0 <= k < |Plan(repos, entries)| ==> Plan(repos, entries)[k].Skip?)
            <==> (forall f :: f in Folders(repos) ==> f in entries)
  {
    PlanDecisions(repos, entries);
    var p := Plan(repos, entries);
    forall f | f in Folders(repos)
      ensures (exists k :: 0 <= k < |p| && p[k].folder == f)
    {
      var j :| 0 <= j < |Folders(repos)| && Folders(repos)[j] == f;
      assert FoldersOf(p)[j] == f;
    }
    forall k | 0 <= k < |p|
      ensures p[k].folder in Folders(repos)
    {
      assert FoldersOf(p)[k] == p[k].folder;
    }
  }

  /** Entries outside `Folders(repos)` do not influence the plan. */
  lemma {:induction false} PlanIgnoresOtherEntries(repos: seq<Repository>, e1: set<string>, e2: set<string>)
    requires forall f :: f in Folders(repos) ==> (f in e1 <==> f in e2)
    ensures Plan(repos, e1) == Plan(repos, e2)
    decreases |repos|
  {
    if |repos| > 0 {
      assert RepoFolders(repos[0]) <= Folders(repos);
      forall f | f in Folders(repos[1..])
        ensures f in e1 <==> f in e2
      {
        assert Folders(repos) == RepoFolders(repos[0]) + Folders(repos[1..]);
      }
      PlanIgnoresOtherEntries(repos[1..], e1, e2);
    }
  }

  // ---------------------------------------------------------------------------
  // Test mode
  // ---------------------------------------------------------------------------

  /** Test mode creates nothing, so its decisions are the plan against the
      starting entries, and the entries are unchanged. */
  lemma {:induction false} DryRunIsPlan(repos: seq<Repository>, entries: set<string>, succeeds: string -> bool)
    ensures Sync(repos, entries, true, succeeds) == Outcome(Plan(repos, entries), entries)
    decreases |repos|
  {
    if |repos| > 0 {
      DryRunIsPlan(repos[1..], entries, succeeds);
    }
  }

  /** `run` prints in test mode what it would otherwise execute: the same
      commands in the same order, none of them executed. A corollary of the
      contract of `Script`. */
  lemma DryRunSameCommands(actions: seq<Action>)
    ensures |Script(actions, true)| == |Script(actions, false)|
    ensures forall k :: 0 <= k < |Script(actions, true)| ==>
              && Script(actions, true)[k].command == Script(actions, false)[k].command
              && !Script(actions, true)[k].executed
  {
  }

  // ---------------------------------------------------------------------------
  // The live run
  // ---------------------------------------------------------------------------

  /** Whatever the clones' outcomes and the mode, the loop decides once about
      each folder of `Folders(repos)`, in order: a failed clone does not stop
      the later repositories, and the main decision precedes the wiki's. */
  lemma {:induction false} SyncFolders(repos: seq<Repository>, entries: set<string>, test: bool, succeeds: string -> bool)
    ensures FoldersOf(Sync(repos, entries, test, succeeds).actions) == Folders(repos)
    decreases |repos|
  {
    if |repos| > 0 {
      var main := CloneRepo(repos[0], entries);
      var e1 := Apply(main, entries, test, succeeds);
      var wiki := CloneRepoWiki(repos[0], e1);
      var e2 := if wiki == [] then e1 else Apply(wiki[0], e1, test, succeeds);
      SyncFolders(repos[1..], e2, test, succeeds);
      var rest := Sync(repos[1..], e2, test, succeeds).actions;
      assert FoldersOf([main] + wiki) == RepoFolders(repos[0]);
      FoldersOfConcat([main] + wiki, rest);
    }
  }

  lemma FoldersOfConcat(x: seq<Action>, y: seq<Action>)
    ensures FoldersOf(x + y) == FoldersOf(x) + FoldersOf(y)
  {
    assert forall k :: 0 <= k < |x| ==> (x + y)[k] == x[k];
  }

  predicate Distinct(fs: seq<string>) {
    forall i, j :: 0 <= i < j < |fs| ==> fs[i] != fs[j]
  }

  lemma {:induction false} DistinctConcat(a: seq<string>, b: seq<string>)
    requires Distinct(a + b)
    ensures Distinct(b)
    ensures forall x :: x in a ==> x !in b
  {
    forall i, j | 0 <= i < j < |b|
      ensures b[i] != b[j]
    {
      assert b[i] == (a + b)[|a| + i] && b[j] == (a + b)[|a| + j];
    }
    forall x | x in a
      ensures x !in b
    {
      var i :| 0 <= i < |a| && a[i] == x;
      if j :| 0 <= j < |b| && b[j] == x {
        assert (a + b)[i] == (a + b)[|a| + j];
      }
    }
  }

  /** When no folder is decided about twice, the live loop takes the same
      decisions as test mode, whatever the clones' outcomes: test mode is
      then a faithful preview. */
  lemma {:induction false} LiveRunMatchesPlan(repos: seq<Repository>, entries: set<string>, test: bool, succeeds: string -> bool)
    requires Distinct(Folders(repos))
    ensures Sync(repos, entries, test, succeeds).actions == Plan(repos, entries)
    decreases |repos|
  {
    if |repos| > 0 {
      var r := repos[0];
      var main := CloneRepo(r, entries);
      var e1 := Apply(main, entries, test, succeeds);
      var wiki := CloneRepoWiki(r, e1);
      var e2 := if wiki == [] then e1 else Apply(wiki[0], e1, test, succeeds);
      assert WikiFolder(r.name) != r.name by {
        assert |WikiFolder(r.name)| == |r.name| + 5;
      }
      assert wiki == CloneRepoWiki(r, entries);
      DistinctConcat(RepoFolders(r), Folders(repos[1..]));
      assert e2 <= entries + {r.name, WikiFolder(r.name)};
      assert Truthy(r.gitWikiUrl) ==> WikiFolder(r.name) in RepoFolders(r);
      assert !Truthy(r.gitWikiUrl) ==> e2 <= entries + {r.name};
      LiveRunMatchesPlan(repos[1..], e2, test, succeeds);
      PlanIgnoresOtherEntries(repos[1..], e2, entries);
    }
  }

  /** Without distinct folders test mode can mislead: when the wiki of `a`
      is cloned into `a.wiki` and a repository named `a.wiki` follows, the
      live run skips it while test mode plans to clone it. */
  lemma LiveRunCanDifferFromDryRun(a: Repository, b: Repository, succeeds: string -> bool)
    requires a.name == "a" && Truthy(a.gitWikiUrl) && succeeds(a.gitUrl) && succeeds(a.gitWikiUrl.value)
    requires b.name == "a.wiki"
    ensures var live := Sync([a, b], {}, false, succeeds).actions;
            |live| >= 3 && live[2] == Skip("a.wiki")
    ensures var dry := Sync([a, b], {}, true, succeeds).actions;
            |dry| >= 3 && dry[2] == Clone("a.wiki", b.gitUrl)
  {
    assert WikiFolder(a.name) == "a.wiki";
    assert [a, b][1..] == [b];
    var e1 := {a.name};
    var e2 := {a.name, "a.wiki"};
    assert CloneRepo(a, {}) == Clone(a.name, a.gitUrl);
    assert Apply(Clone(a.name, a.gitUrl), {}, false, succeeds) == e1;
    assert CloneRepoWiki(a, e1) == [Clone("a.wiki", a.gitWikiUrl.value)];
    assert Apply(Clone("a.wiki", a.gitWikiUrl.value), e1, false, succeeds) == e2;
    assert Sync([a, b], {}, false, succeeds).actions
           == [Clone(a.name, a.gitUrl), Clone("a.wiki", a.gitWikiUrl.value)]
              + Sync([b], e2, false, succeeds).actions;
    assert Sync([b], e2, false, succeeds).actions[0] == Skip("a.wiki");
    assert Plan([a, b], {}) == RepoPlan(a, {}) + RepoPlan(b, {}) + Plan([], {});
    DryRunIsPlan([a, b], {}, succeeds);
  }

  /** After a live run in which every clone succeeds, every folder the loop
      decides about exists. */
  lemma {:induction false} LiveRunCreatesFolders(repos: seq<Repository>, entries: set<string>, succeeds: string -> bool)
    requires forall u :: succeeds(u)
    ensures forall f :: f in Folders(repos) ==> f in Sync(repos, entries, false, succeeds).entries
    decreases |repos|
  {
    if |repos| > 0 {
      var r := repos[0];
      var main := CloneRepo(r, entries);
      var e1 := Apply(main, entries, false, succeeds);
      var wiki := CloneRepoWiki(r, e1);
      var e2 := if wiki == [] then e1 else Apply(wiki[0], e1, false, succeeds);
      LiveRunCreatesFolders(repos[1..], e2, succeeds);
      assert r.name in e1;
      assert Truthy(r.gitWikiUrl) ==> WikiFolder(r.name) in e2;
      assert e2 <= Sync(repos[1..], e2, false, succeeds).entries;
    }
  }

  /** When every folder already exists, the loop only skips and changes
      nothing, in either mode and whatever the clones would do. */
  lemma {:induction false} SyncWhenAllPresent(repos: seq<Repository>, entries: set<string>, test: bool, succeeds: string -> bool)
    requires forall f :: f in Folders(repos) ==> f in entries
    ensures Sync(repos, entries, test, succeeds) == Outcome(Plan(repos, entries), entries)
    ensures forall k :: 0 <= k < |Plan(repos, entries)| ==> Plan(repos, entries)[k].Skip?
    decreases |repos|
  {
    PlanClonesNothingIff(repos, entries);
    if |repos| > 0 {
      forall f | f in Folders(repos[1..])
        ensures f in entries
      {
        assert Folders(repos) == RepoFolders(repos[0]) + Folders(repos[1..]);
      }
      SyncWhenAllPresent(repos[1..], entries, test, succeeds);
    }
  }

  /** Running the script twice: when the first live run's clones all
      succeed, the second run clones nothing and leaves the entries as they
      are. */
  lemma {:induction false} SecondRunClonesNothing(repos: seq<Repository>, entries: set<string>, succeeds: string -> bool, test: bool, succeeds2: string -> bool)
    requires forall u :: succeeds(u)
    ensures var after := Sync(repos, entries, false, succeeds).entries;
            && Sync(repos, after, test, succeeds2).entries == after
            && forall k :: 0 <= k < |Sync(repos, after, test, succeeds2).actions| ==>
                 Sync(repos, after, test, succeeds2).actions[k].Skip?
  {
    var after := Sync(repos, entries, false, succeeds).entries;
    LiveRunCreatesFolders(repos, entries, succeeds);
    SyncWhenAllPresent(repos, after, test, succeeds2);
  }

  /** Action `a` concerns repository `repo`: its folder, cloned from its
      URL, or its wiki folder, cloned from its wiki URL. */
  predicate ActionFor(a: Action, repo: Repository) {
    || (a.folder == repo.name && (a.Clone? ==> a.url == repo.gitUrl))
    || (&& Truthy(repo.gitWikiUrl) && a.folder == WikiFolder(repo.name)
        && (a.Clone? ==> a.url == repo.gitWikiUrl.value))
  }

  /** Each action concerns one of `repos`. */
  ghost predicate ActionsFor(acts: seq<Action>, repos: seq<Repository>) {
    forall k :: 0 <= k < |acts| ==> exists m :: 0 <= m < |repos| && ActionFor(acts[k], repos[m])
  }

  /** Every decision of the loop concerns one of the listed repositories and
      clones only from that repository's URLs. */
  lemma {:induction false} SyncActionsFor(repos: seq<Repository>, entries: set<string>, test: bool, succeeds: string -> bool)
    ensures ActionsFor(Sync(repos, entries, test, succeeds).actions, repos)
    decreases |repos|
  {
    if |repos| > 0 {
      var main := CloneRepo(repos[0], entries);
      var e1 := Apply(main, entries, test, succeeds);
      var wiki := CloneRepoWiki(repos[0], e1);
      var e2 := if wiki == [] then e1 else Apply(wiki[0], e1, test, succeeds);
      SyncActionsFor(repos[1..], e2, test, succeeds);
      var head := [main] + wiki;
      var rest := Sync(repos[1..], e2, test, succeeds).actions;
      var acts := head + rest;
      forall k | 0 <= k < |acts|
        ensures exists m :: 0 <= m < |repos| && ActionFor(acts[k], repos[m])
      {
        if k < |head| {
          assert ActionFor(acts[k], repos[0]);
        } else {
          var j := k - |head|;
          assert 0 <= j < |rest|;
          assert ActionsFor(rest, repos[1..]);
          var m' :| 0 <= m' < |repos[1..]| && ActionFor(rest[j], repos[1..][m']);
          assert acts[k] == rest[k - |head|];
          assert ActionFor(acts[k], repos[m' + 1]);
        }
      }
    }
  }

  /** The folders created by the successful clones among `actions`. */
  function Created(actions: seq<Action>, test: bool, succeeds: string -> bool): set<string> {
    set a | a in actions && a.Clone? && !test && succeeds(a.url) :: a.folder
  }

  lemma CreatedConcat(x: seq<Action>, y: seq<Action>, test: bool, succeeds: string -> bool)
    ensures Created(x + y, test, succeeds) == Created(x, test, succeeds) + Created(y, test, succeeds)
  {
  }

  lemma ApplyCreated(a: Action, entries: set<string>, test: bool, succeeds: string -> bool)
    ensures Apply(a, entries, test, succeeds) == entries + Created([a], test, succeeds)
  {
    assert a in [a];
  }

  /** Each created folder is a folder some decision was about. */
  lemma {:induction false} CreatedAmongFolders(actions: seq<Action>, test: bool, succeeds: string -> bool)
    ensures forall f :: f in Created(actions, test, succeeds) ==> f in FoldersOf(actions)
  {
    forall f | f in Created(actions, test, succeeds)
      ensures f in FoldersOf(actions)
    {
      var a :| a in actions && a.Clone? && !test && succeeds(a.url) && a.folder == f;
      var k :| 0 <= k < |actions| && actions[k] == a;
      assert FoldersOf(actions)[k] == f;
    }
  }

  /** The entries after the loop are the starting entries and the folders of
      its successful clones. */
  lemma {:induction false} SyncAddsCreated(repos: seq<Repository>, entries: set<string>, test: bool, succeeds: string -> bool)
    ensures var o := Sync(repos, entries, test, succeeds);
            o.entries == entries + Created(o.actions, test, succeeds)
    decreases |repos|
  {
    if |repos| > 0 {
      var main := CloneRepo(repos[0], entries);
      var e1 := Apply(main, entries, test, succeeds);
      var wiki := CloneRepoWiki(repos[0], e1);
      var e2 := if wiki == [] then e1 else Apply(wiki[0], e1, test, succeeds);
      SyncAddsCreated(repos[1..], e2, test, succeeds);
      var head := [main] + wiki;
      var rest := Sync(repos[1..], e2, test, succeeds).actions;
      ApplyCreated(main, entries, test, succeeds);
      if wiki != [] {
        ApplyCreated(wiki[0], e1, test, succeeds);
        assert wiki == [wiki[0]];
      }
      CreatedConcat([main], wiki, test, succeeds);
      CreatedConcat(head, rest, test, succeeds);
    }
  }

  /** A run changes the entries only by the folders of its successful
      clones, so it leaves nothing but the folders it decided about. */
  lemma {:induction false} SyncCreatesOnlyClonedFolders(repos: seq<Repository>, entries: set<string>, test: bool, succeeds: string -> bool)
    ensures forall f :: f in Sync(repos, entries, test, succeeds).entries ==>
              f in entries || f in Folders(repos)
  {
    var o := Sync(repos, entries, test, succeeds);
    SyncAddsCreated(repos, entries, test, succeeds);
    SyncFolders(repos, entries, test, succeeds);
    CreatedAmongFolders(o.actions, test, succeeds);
  }

  // ---------------------------------------------------------------------------
  // The folder git creates
  // ---------------------------------------------------------------------------

  /** The entries after a decision when a successful `git clone <url>`
      creates the folder git names after the URL, `folderOf(url)`, rather
      than the folder the script checked for. */
  function ApplyAt(a: Action, entries: set<string>, test: bool, succeeds: string -> bool, folderOf: string -> string): (e: set<string>)
    ensures a.Clone? && !test && succeeds(a.url) ==> e == entries + {folderOf(a.url)}
    ensures !(a.Clone? && !test && succeeds(a.url)) ==> e == entries
  {
    if a.Clone? && !test && succeeds(a.url) then entries + {folderOf(a.url)} else entries
  }

  /** The main loop against the live file system, with git naming each
      cloned folder. */
  function SyncAt(repos: seq<Repository>, entries: set<string>, test: bool, succeeds: string -> bool, folderOf: string -> string): Outcome
    decreases |repos|
  {
    if |repos| == 0 then Outcome([], entries)
    else
      var main := CloneRepo(repos[0], entries);
      var e1 := ApplyAt(main, entries, test, succeeds, folderOf);
      var wiki := CloneRepoWiki(repos[0], e1);
      var e2 := if wiki == [] then e1 else ApplyAt(wiki[0], e1, test, succeeds, folderOf);
      var rest := SyncAt(repos[1..], e2, test, succeeds, folderOf);
      Outcome([main] + wiki + rest.actions, rest.entries)
  }

  /** Git names every folder the loop may clone exactly as the script
      checks for it: `<name>` for the SSH URL and `<name>.wiki` for a truthy
      wiki URL. */
  predicate NamedAsChecked(repos: seq<Repository>, folderOf: string -> string) {
    forall i :: 0 <= i < |repos| ==>
      && folderOf(repos[i].gitUrl) == repos[i].name
      && (Truthy(repos[i].gitWikiUrl) ==> folderOf(repos[i].gitWikiUrl.value) == WikiFolder(repos[i].name))
  }

  /** When git names the folders as the script checks for them, the loop
      with git's naming is `Sync`, so every lemma about `Sync` applies. */
  lemma {:induction false} SyncAtIsSync(repos: seq<Repository>, entries: set<string>, test: bool, succeeds: string -> bool, folderOf: string -> string)
    requires NamedAsChecked(repos, folderOf)
    ensures SyncAt(repos, entries, test, succeeds, folderOf) == Sync(repos, entries, test, succeeds)
    decreases |repos|
  {
    if |repos| > 0 {
      var main := CloneRepo(repos[0], entries);
      var e1 := Apply(main, entries, test, succeeds);
      assert ApplyAt(main, entries, test, succeeds, folderOf) == e1;
      var wiki := CloneRepoWiki(repos[0], e1);
      if wiki != [] {
        assert ApplyAt(wiki[0], e1, test, succeeds, folderOf) == Apply(wiki[0], e1, test, succeeds);
      }
      var e2 := if wiki == [] then e1 else Apply(wiki[0], e1, test, succeeds);
      assert NamedAsChecked(repos[1..], folderOf) by {
        forall i | 0 <= i < |repos[1..]|
          ensures folderOf(repos[1..][i].gitUrl) == repos[1..][i].name
        {
          assert repos[1..][i] == repos[i + 1];
        }
        forall i | 0 <= i < |repos[1..]| && Truthy(repos[1..][i].gitWikiUrl)
          ensures folderOf(repos[1..][i].gitWikiUrl.value) == WikiFolder(repos[1..][i].name)
        {
          assert repos[1..][i] == repos[i + 1];
        }
      }
      SyncAtIsSync(repos[1..], e2, test, succeeds, folderOf);
    }
  }

  /** Under git's naming, a fully successful live run followed by any run
      clones nothing and changes nothing, provided git names every folder
      as the script checks for it. */
  lemma {:induction false} SecondRunClonesNothingAt(repos: seq<Repository>, entries: set<string>, succeeds: string -> bool, test: bool, succeeds2: string -> bool, folderOf: string -> string)
    requires forall u :: succeeds(u)
    requires NamedAsChecked(repos, folderOf)
    ensures var after := SyncAt(repos, entries, false, succeeds, folderOf).entries;
            var again := SyncAt(repos, after, test, succeeds2, folderOf);
            && again.entries == after
            && forall k :: 0 <= k < |again.actions| ==> again.actions[k].Skip?
  {
    SyncAtIsSync(repos, entries, false, succeeds, folderOf);
    var after := Sync(repos, entries, false, succeeds).entries;
    SyncAtIsSync(repos, after, test, succeeds2, folderOf);
    SecondRunClonesNothing(repos, entries, succeeds, test, succeeds2);
  }

  /** Without that naming the script is not idempotent: when git names the
      wiki's folder other than `<name>.wiki` (as for the wiki of
      `foo.github.io`, whose URL has two rewritten `.git`), every later run
      finds `<name>.wiki` absent and clones the wiki again. */
  lemma {:induction false} SecondRunReclonesWiki(repo: Repository, succeeds: string -> bool, folderOf: string -> string)
    requires Truthy(repo.gitWikiUrl) && forall u :: succeeds(u)
    requires folderOf(repo.gitUrl) == repo.name
    requires folderOf(repo.gitWikiUrl.value) != WikiFolder(repo.name)
    ensures var after := SyncAt([repo], {}, false, succeeds, folderOf).entries;
            var again := SyncAt([repo], after, false, succeeds, folderOf).actions;
            && after == {repo.name, folderOf(repo.gitWikiUrl.value)}
            && again == [Skip(repo.name), Clone(WikiFolder(repo.name), repo.gitWikiUrl.value)]
  {
    var w := repo.gitWikiUrl.value;
    assert [repo][1..] == [];
    assert |WikiFolder(repo.name)| != |repo.name|;
    var e1 := {repo.name};
    assert CloneRepoWiki(repo, e1) == [Clone(WikiFolder(repo.name), w)];
    var after := {repo.name, folderOf(w)};
    assert SyncAt([repo], {}, false, succeeds, folderOf).entries == after;
    assert WikiFolder(repo.name) !in after;
    assert CloneRepoWiki(repo, after) == [Clone(WikiFolder(repo.name), w)];
  }
}

=== FILE: install.dfy ===
/** One run of `install.py`: list the repositories, report how many were
    found, then clone each repository and its wiki in order. The listing
    itself (HTTP and JSON) is the `records` parameter. */
module Install {
  import opened Wrappers
  import opened Strings
  import opened Wiki
  import opened Repos
  import opened Cloning

  /** What a run produces: the count it prints, the decisions it takes, the
      effects of `run`, and the entries afterwards. */
  datatype Report = Report(found: nat, actions: seq<Action>, effects: seq<Effect>, entries: set<string>)

  function InstallAll(records: seq<Record>, entries: set<string>, test: bool, succeeds: string -> bool): (r: Report)
    ensures r.found == |KeptIndices(records)| <= |records|
    ensures FoldersOf(r.actions) == Folders(GetRepos(records))
    ensures test ==> r.entries == entries && r.actions == Plan(GetRepos(records), entries)
    ensures forall e :: e in r.effects ==> (e.executed <==> !test)
  {
    var repos := GetRepos(records);
    GetReposSelectsKept(records);
    SyncFolders(repos, entries, test, succeeds);
    DryRunIsPlan(repos, entries, succeeds);
    var o := Sync(repos, entries, test, succeeds);
    Report(|repos|, o.actions, Script(o.actions, test), o.entries)
  }

  /** No archived record and no `root` record leads to a clone: every
      decision concerns a kept record and clones only from its SSH URL or
      the wiki URL derived from it. */
  lemma {:induction false} InstallActsOnlyForKeptRecords(records: seq<Record>, entries: set<string>, test: bool, succeeds: string -> bool)
    ensures var acts := InstallAll(records, entries, test, succeeds).actions;
            forall k :: 0 <= k < |acts| ==>
              exists i :: 0 <= i < |records| && Kept(records[i]) && ActionFor(acts[k], Describe(records[i]))
  {
    var repos := GetRepos(records);
    var acts := InstallAll(records, entries, test, succeeds).actions;
    SyncActionsFor(repos, entries, test, succeeds);
    GetReposSelectsKept(records);
    var idx := KeptIndices(records);
    assert acts == Sync(repos, entries, test, succeeds).actions;
    assert ActionsFor(acts, repos);
    forall k | 0 <= k < |acts|
      ensures exists i :: 0 <= i < |records| && Kept(records[i]) && ActionFor(acts[k], Describe(records[i]))
    {
      var m :| 0 <= m < |repos| && ActionFor(acts[k], repos[m]);
      assert repos[m] == Describe(records[idx[m]]);
    }
  }

  /** Running the script a second time after a run whose clones all
      succeeded clones nothing and creates nothing. */
  lemma {:induction false} InstallTwiceClonesNothing(records: seq<Record>, entries: set<string>, succeeds: string -> bool, test: bool, succeeds2: string -> bool)
    requires forall u :: succeeds(u)
    ensures var after := InstallAll(records, entries, false, succeeds).entries;
            var again := InstallAll(records, after, test, succeeds2);
            && again.entries == after
            && again.effects == []
            && forall k :: 0 <= k < |again.actions| ==> again.actions[k].Skip?
  {
    var repos := GetRepos(records);
    SecondRunClonesNothing(repos, entries, succeeds, test, succeeds2);
    var after := InstallAll(records, entries, false, succeeds).entries;
    var again := InstallAll(records, after, test, succeeds2);
    ScriptOfSkips(again.actions, test);
  }

  lemma {:induction false} ScriptOfSkips(actions: seq<Action>, test: bool)
    requires forall k :: 0 <= k < |actions| ==> actions[k].Skip?
    ensures Script(actions, test) == []
    decreases |actions|
  {
    if |actions| > 0 {
      ScriptOfSkips(actions[1..], test);
    }
  }

  /** The three-record scenario run live in an empty directory with every
      clone succeeding: `alpha` and its wiki are cloned, and exactly the
      folders `alpha` and `alpha.wiki` exist afterwards. */
  lemma ThreeRecordRun(alpha: Record, beta: Record, root: Record, base: string, succeeds: string -> bool)
    requires !Contains(base, GitSuffix)
    requires alpha == Record("alpha", false, base + GitSuffix, true)
    requires beta.archived
    requires root.name == RootRepoName
    requires forall u :: succeeds(u)
    ensures var r := InstallAll([alpha, beta, root], {}, false, succeeds);
            && r.found == 1
            && r.actions == [Clone("alpha", base + GitSuffix), Clone("alpha.wiki", base + WikiGitSuffix)]
            && r.effects == [Effect(CloneCommand(base + GitSuffix), true),
                             Effect(CloneCommand(base + WikiGitSuffix), true)]
            && r.entries == {"alpha", "alpha.wiki"}
  {
    ThreeRecordScenario(alpha, beta, root, base);
    var repo := Repository("alpha", base + GitSuffix, Some(base + WikiGitSuffix));
    assert WikiFolder("alpha") == "alpha.wiki";
    assert Truthy(repo.gitWikiUrl) by {
      assert |base + WikiGitSuffix| > 0;
    }
    assert [repo][1..] == [];
    assert Sync([repo], {}, false, succeeds) ==
           Outcome([Clone("alpha", base + GitSuffix), Clone("alpha.wiki", base + WikiGitSuffix)], {"alpha", "alpha.wiki"});
  }
}

=== FILE: repos.dfy ===
/** The repository listing of `install.py`: the records the forge returns
    and the `Repository` descriptors `get_repos` builds from them. */
module Repos {
  import opened Wrappers
  import opened Strings
  import opened Wiki

  /** One parsed entry of the organisation's repository listing; only the
      four fields the script reads. */
  datatype Record = Record(name: string, archived: bool, sshUrl: string, hasWiki: bool)

  /** The `Repository` dataclass: what the clone loop needs to know. */
  datatype Repository = Repository(name: string, gitUrl: string, gitWikiUrl: Option<string>)

  /** The control repository, never cloned. */
  const RootRepoName: string := "root"

  /** The filter of `get_repos`: archived records and the control
      repository are skipped. */
  predicate Kept(r: Record) {
    !r.archived && r.name != RootRepoName
  }

  /** The descriptor built for a kept record. */
  function Describe(r: Record): (d: Repository)
    ensures d.name == r.name && d.gitUrl == r.sshUrl
    ensures d.gitWikiUrl.Some? <==> r.hasWiki
    ensures d.gitWikiUrl.Some? ==> d.gitWikiUrl.value == WikiUrl(r.sshUrl)
    ensures d.gitWikiUrl.Some? ==> UnWikiUrl(d.gitWikiUrl.value) == d.gitUrl
    ensures d.gitWikiUrl.Some? ==> (d.gitWikiUrl.value == d.gitUrl <==> !Contains(d.gitUrl, GitSuffix))
  {
    WikiUrlRoundTrip(r.sshUrl);
    WikiUrlUnchangedIff(r.sshUrl);
    Repository(r.name, r.sshUrl, if r.hasWiki then Some(WikiUrl(r.sshUrl)) else None)
  }

  /** The loop of `get_repos`: one descriptor appended per kept record, in
      listing order. */
  function GetRepos(records: seq<Record>): (repos: seq<Repository>)
    ensures |repos| <= |records|
    ensures forall k :: 0 <= k < |repos| ==> repos[k].name != RootRepoName
    decreases |records|
  {
    if |records| == 0 then []
    else
      var last := records[|records| - 1];
      GetRepos(records[..|records| - 1]) + (if Kept(last) then [Describe(last)] else [])
  }

  /** The positions of the kept records, in increasing order: a reference
      description of which records `get_repos` keeps. */
  function KeptIndices(records: seq<Record>): (idx: seq<nat>)
    ensures forall k :: 0 <= k < |idx| ==> idx[k] < |records| && Kept(records[idx[k]])
    ensures forall k, l :: 0 <= k < l < |idx| ==> idx[k] < idx[l]
    ensures forall i :: 0 <= i < |records| && Kept(records[i]) ==> i in idx
    decreases |records|
  {
    if |records| == 0 then []
    else
      var n := |records| - 1;
      KeptIndices(records[..n]) + (if Kept(records[n]) then [n] else [])
  }

  /** `get_repos` is an order-preserving filter-map: its k-th descriptor
      describes the k-th kept record, and there is one per kept record. */
  lemma {:induction false} GetReposSelectsKept(records: seq<Record>)
    ensures |GetRepos(records)| == |KeptIndices(records)|
    ensures forall k :: 0 <= k < |GetRepos(records)| ==>
              GetRepos(records)[k] == Describe(records[KeptIndices(records)[k]])
    decreases |records|
  {
    if |records| > 0 {
      var n := |records| - 1;
      GetReposSelectsKept(records[..n]);
      var idx := KeptIndices(records[..n]);
      assert forall k :: 0 <= k < |idx| ==> records[..n][idx[k]] == records[idx[k]];
    }
  }

  /** The scenario of three records `alpha` (with a wiki, SSH URL
      `<base>.git`), `beta` (archived) and `root`: only `alpha` is described,
      and its wiki URL is `<base>.wiki.git`. */
  lemma ThreeRecordScenario(alpha: Record, beta: Record, root: Record, base: string)
    requires !Contains(base, GitSuffix)
    requires alpha == Record("alpha", false, base + GitSuffix, true)
    requires beta.archived
    requires root.name == RootRepoName
    ensures GetRepos([alpha, beta, root]) ==
              [Repository("alpha", base + GitSuffix, Some(base + WikiGitSuffix))]
  {
    WikiUrlOfPlainBase(base);
    assert [alpha, beta, root][..2] == [alpha, beta];
    assert [alpha, beta][..1] == [alpha];
    assert [alpha][..0] == [];
    assert Kept(alpha) by {
      assert "alpha"[0] != RootRepoName[0];
    }
    assert GetRepos([alpha]) == [Describe(alpha)];
    assert GetRepos([alpha, beta]) == GetRepos([alpha]);
  }
}

=== FILE: strings.dfy ===
/** Substring search and Python's `str.replace(old, new)` on strings, for a
    non-empty `old`: every non-overlapping occurrence, scanning left to right,
    is replaced. */
module Strings {

  /** `p` occurs in `s` starting at index `i`. */
  ghost predicate OccursAt(s: string, p: string, i: int) {
    0 <= i && i + |p| <= |s| && s[i..i + |p|] == p
  }

  ghost predicate Contains(s: string, p: string) {
    exists i :: OccursAt(s, p, i)
  }

  /** An occurrence in a suffix of `s` is an occurrence in `s`. */
  lemma {:induction false} ContainsSuffix(s: string, p: string, n: nat)
    requires n <= |s|
    ensures Contains(s[n..], p) ==> Contains(s, p)
  {
    if Contains(s[n..], p) {
      var i :| OccursAt(s[n..], p, i);
      assert s[n..][i..i + |p|] == s[n + i..n + i + |p|];
      assert OccursAt(s, p, n + i);
    }
  }

  /** Python's `s.replace(p, r)` for a non-empty `p`. */
  function ReplaceAll(s: string, p: string, r: string): string
    requires |p| > 0
    decreases |s|
  {
    if |s| < |p| then s
    else if s[..|p|] == p then r + ReplaceAll(s[|p|..], p, r)
    else [s[0]] + ReplaceAll(s[1..], p, r)
  }

  /** Without an occurrence of `p` there is nothing to replace. */
  lemma {:induction false} ReplaceAllAbsent(s: string, p: string, r: string)
    requires |p| > 0 && !Contains(s, p)
    ensures ReplaceAll(s, p, r) == s
    decreases |s|
  {
    if |s| >= |p| {
      if s[..|p|] == p {
        assert OccursAt(s, p, 0);
        assert false;
      }
      ContainsSuffix(s, p, 1);
      ReplaceAllAbsent(s[1..], p, r);
    }
  }

  /** The number of occurrences `ReplaceAll` rewrites: non-overlapping,
      taken left to right. */
  function Count(s: string, p: string): nat
    requires |p| > 0
    decreases |s|
  {
    if |s| < |p| then 0
    else if s[..|p|] == p then 1 + Count(s[|p|..], p)
    else Count(s[1..], p)
  }

  /** The left-to-right scan finds an occurrence exactly when there is one. */
  lemma {:induction false} CountPositiveIffContains(s: string, p: string)
    requires |p| > 0
    ensures Count(s, p) > 0 <==> Contains(s, p)
    decreases |s|
  {
    if |s| < |p| {
      if i :| OccursAt(s, p, i) {
        assert false;
      }
    } else if s[..|p|] == p {
      assert OccursAt(s, p, 0);
    } else {
      CountPositiveIffContains(s[1..], p);
      ContainsSuffix(s, p, 1);
      if Contains(s, p) {
        var i :| OccursAt(s, p, i);
        assert i != 0;
        assert s[1..][i - 1..i - 1 + |p|] == s[i..i + |p|];
        assert OccursAt(s[1..], p, i - 1);
      }
    }
  }

  lemma MulStep(c: int, d: int)
    ensures (c + 1) * d == c * d + d
  {}

  lemma MulNonZero(c: int, d: int)
    requires c != 0 && d != 0
    ensures c * d != 0
  {}

  /** Each rewritten occurrence changes the length by `|r| - |p|`. */
  lemma {:induction false} ReplaceAllLength(s: string, p: string, r: string)
    requires |p| > 0
    ensures |ReplaceAll(s, p, r)| == |s| + Count(s, p) * (|r| - |p|)
    decreases |s|
  {
    if |s| < |p| {
    } else if s[..|p|] == p {
      ReplaceAllLength(s[|p|..], p, r);
      MulStep(Count(s[|p|..], p), |r| - |p|);
    } else {
      ReplaceAllLength(s[1..], p, r);
    }
  }

  /** A replacement of a different length leaves `s` unchanged exactly when
      `p` does not occur in it. */
  lemma {:induction false} ReplaceAllUnchangedIff(s: string, p: string, r: string)
    requires |p| > 0 && |r| != |p|
    ensures ReplaceAll(s, p, r) == s <==> !Contains(s, p)
  {
    ReplaceAllLength(s, p, r);
    CountPositiveIffContains(s, p);
    if Contains(s, p) {
      MulNonZero(Count(s, p), |r| - |p|);
    } else {
      ReplaceAllAbsent(s, p, r);
    }
  }
}

=== FILE: wiki.dfy ===
/** The wiki clone URL that `get_repos` in `install.py` derives from a
    repository's SSH URL with `ssh_url.replace('.git', '.wiki.git')`. */
module Wiki {
  import opened Strings

  const GitSuffix: string := ".git"
  const WikiGitSuffix: string := ".wiki.git"

  /** `ssh_url.replace('.git', '.wiki.git')`: every occurrence of `.git` is
      rewritten, not only the suffix. */
  function WikiUrl(sshUrl: string): string {
    ReplaceAll(sshUrl, GitSuffix, WikiGitSuffix)
  }

  /** The wiki URL equals the SSH URL exactly when the latter has no `.git`,
      and each rewritten `.git` makes it five characters longer. */
  lemma {:induction false} WikiUrlUnchangedIff(sshUrl: string)
    ensures WikiUrl(sshUrl) == sshUrl <==> !Contains(sshUrl, GitSuffix)
    ensures |WikiUrl(sshUrl)| == |sshUrl| + 5 * Count(sshUrl, GitSuffix)
  {
    ReplaceAllUnchangedIff(sshUrl, GitSuffix, WikiGitSuffix);
    ReplaceAllLength(sshUrl, GitSuffix, WikiGitSuffix);
  }

  /** The reverse substitution, `.wiki.git` back to `.git`. */
  function UnWikiUrl(wikiUrl: string): string {
    ReplaceAll(wikiUrl, WikiGitSuffix, GitSuffix)
  }

  /** How the wiki URL begins, by the first character of the SSH URL. */
  lemma WikiUrlFirst(u: string)
    ensures |u| == 0 ==> WikiUrl(u) == []
    ensures |u| > 0 && u[0] == '.' ==> |WikiUrl(u)| > 0 && WikiUrl(u)[0] == '.'
    ensures |u| > 0 && u[0] != '.' ==> WikiUrl(u) == [u[0]] + WikiUrl(u[1..])
  {
    if |u| >= 4 && u[..4] == GitSuffix {
      assert WikiUrl(u) == WikiGitSuffix + WikiUrl(u[4..]);
    }
  }

  /** A wiki URL that does not begin with `.` got its first character
      verbatim from the SSH URL. */
  lemma WikiUrlHeadNotDot(u: string)
    requires |WikiUrl(u)| > 0 && WikiUrl(u)[0] != '.'
    ensures |u| > 0 && u[0] == WikiUrl(u)[0]
    ensures WikiUrl(u) == [u[0]] + WikiUrl(u[1..])
  {
    WikiUrlFirst(u);
  }

  /** A wiki URL that begins with a run of characters other than `.` got
      that run verbatim from the SSH URL. */
  lemma {:induction false} WikiUrlDotFreePrefix(u: string, q: string)
    requires forall k :: 0 <= k < |q| ==> q[k] != '.'
    ensures |WikiUrl(u)| >= |q| && WikiUrl(u)[..|q|] == q ==>
              && |u| >= |q| && u[..|q|] == q
              && WikiUrl(u) == q + WikiUrl(u[|q|..])
    decreases |q|
  {
    var w := WikiUrl(u);
    if |q| > 0 && |w| >= |q| && w[..|q|] == q {
      assert w[0] == w[..|q|][0] == q[0];
      WikiUrlHeadNotDot(u);
      var w' := WikiUrl(u[1..]);
      assert w'[..|q| - 1] == w[1..|q|] == q[1..];
      WikiUrlDotFreePrefix(u[1..], q[1..]);
      assert u[1..][|q| - 1..] == u[|q|..];
      ConsPrefix(u, q, w, w', WikiUrl(u[|q|..]));
    } else if |q| == 0 {
      assert u[|q|..] == u;
    }
  }

  /** The inductive step of `WikiUrlDotFreePrefix`, on plain sequences:
      a matching first character in front of a matching rest. */
  lemma ConsPrefix(u: string, q: string, w: string, w1: string, wr: string)
    requires |q| > 0 && |u| > 0 && u[0] == q[0]
    requires w == [u[0]] + w1
    requires |u| - 1 >= |q| - 1 && u[1..][..|q| - 1] == q[1..]
    requires w1 == q[1..] + wr
    ensures |u| >= |q| && u[..|q|] == q
    ensures w == q + wr
  {
    assert u[..|q|] == [u[0]] + u[1..][..|q| - 1];
    assert q == [q[0]] + q[1..];
  }

  /** No wiki URL starts with `.git`: each `.git` of the input comes out
      preceded by `.wiki`. */
  lemma {:induction false} WikiUrlNeverStartsWithGit(s: string)
    ensures !(|WikiUrl(s)| >= 4 && WikiUrl(s)[..4] == GitSuffix)
  {
    var w := WikiUrl(s);
    if |s| >= 4 && s[..4] == GitSuffix {
      assert w == WikiGitSuffix + WikiUrl(s[4..]);
      assert w[1] == 'w';
    } else if |s| >= 4 && s[0] == '.' {
      var w' := WikiUrl(s[1..]);
      assert w == [s[0]] + w';
      assert |w| >= 4 ==> w[..4] == [s[0]] + w'[..3];
      assert |w| >= 4 && w[..4] == GitSuffix ==> |w'| >= 3 && w'[..3] == w[..4][1..] == "git";
      assert s[..4] == [s[0]] + s[1..][..3];
      WikiUrlDotFreePrefix(s[1..], "git");
    } else if |s| < 4 {
      assert w == s;
    } else {
      WikiUrlFirst(s);
      assert w[0] == s[0] != '.';
    }
  }

  /** Undoing the substitution recovers the SSH URL, so distinct SSH URLs get
      distinct wiki URLs. */
  lemma {:induction false} WikiUrlRoundTrip(s: string)
    ensures UnWikiUrl(WikiUrl(s)) == s
    decreases |s|
  {
    if |s| < 4 {
    } else if s[..4] == GitSuffix {
      var w := WikiUrl(s[4..]);
      WikiUrlRoundTrip(s[4..]);
      assert WikiUrl(s) == WikiGitSuffix + w;
      assert (WikiGitSuffix + w)[..9] == WikiGitSuffix;
      assert (WikiGitSuffix + w)[9..] == w;
      assert UnWikiUrl(WikiUrl(s)) == GitSuffix + UnWikiUrl(w);
      assert s == s[..4] + s[4..];
    } else {
      var w := WikiUrl(s[1..]);
      WikiUrlRoundTrip(s[1..]);
      assert WikiUrl(s) == [s[0]] + w;
      var t := [s[0]] + w;
      NoWikiGitAfterHead(s[0], s[1..]);
      assert t[1..] == w;
      assert UnWikiUrl(t) == [s[0]] + UnWikiUrl(w);
      assert s == [s[0]] + s[1..];
    }
  }

  /** A prefix without `.git` is copied verbatim, and the `.git` that ends it
      is rewritten to `.wiki.git`; the rest is rewritten on its own. */
  lemma {:induction false} WikiUrlOfPlainPrefix(a: string, u: string)
    requires !Contains(a, GitSuffix)
    ensures WikiUrl(a + GitSuffix + u) == a + WikiGitSuffix + WikiUrl(u)
    decreases |a|
  {
    var s := a + GitSuffix + u;
    if |a| == 0 {
      assert s[..4] == GitSuffix && s[4..] == u;
    } else {
      assert !OccursAt(a, GitSuffix, 0);
      NoGitAtJoin(a, GitSuffix + u);
      assert s == a + (GitSuffix + u);
      assert s[1..] == a[1..] + GitSuffix + u;
      ContainsSuffix(a, GitSuffix, 1);
      WikiUrlOfPlainPrefix(a[1..], u);
      assert WikiUrl(s) == [s[0]] + WikiUrl(s[1..]);
      assert a == [a[0]] + a[1..];
    }
  }

  /** A non-empty `a` that does not begin with `.git`, followed by text
      beginning with `.`, does not begin with `.git` either. */
  lemma {:induction false} NoGitAtJoin(a: string, t: string)
    requires |a| > 0 && !OccursAt(a, GitSuffix, 0)
    requires |t| > 0 && t[0] == '.'
    ensures !(|a + t| >= 4 && (a + t)[..4] == GitSuffix)
  {
    var s := a + t;
    if |a| >= 4 {
      assert s[..4] == a[..4];
    } else if |s| >= 4 {
      assert s[..4][|a|] == t[0] == '.';
      assert GitSuffix[|a|] != '.';
    }
  }

  /** A wiki URL preceded by one character never reads `.wiki.git` from
      the start: the `.git` after `wiki` would have been rewritten. */
  lemma {:induction false} NoWikiGitAfterHead(c: char, u: string)
    ensures !(|[c] + WikiUrl(u)| >= 9 && ([c] + WikiUrl(u))[..9] == WikiGitSuffix)
  {
    var w := WikiUrl(u);
    var t := [c] + w;
    if |t| >= 9 && t[..9] == WikiGitSuffix {
      assert t[1..5] == WikiGitSuffix[1..5] == "wiki";
      assert w[..4] == t[1..5];
      WikiUrlDotFreePrefix(u, "wiki");
      assert WikiUrl(u[4..])[..4] == t[5..9];
      WikiUrlNeverStartsWithGit(u[4..]);
      assert false;
    }
  }

  /** When `.git` occurs only as the suffix, the wiki URL is the suffix
      rewrite `<base>.wiki.git`: the one-substitution reading holds for
      ordinary SSH URLs. */
  lemma {:induction false} WikiUrlOfPlainBase(base: string)
    requires !Contains(base, GitSuffix)
    ensures WikiUrl(base + GitSuffix) == base + WikiGitSuffix
  {
    WikiUrlOfPlainPrefix(base, []);
    assert base + GitSuffix + [] == base + GitSuffix;
    assert WikiUrl([]) == [];
  }

  /** Every `.git` is rewritten, not only the suffix: for the SSH URL
      `git@github.com:modular-server-manager/foo.github.io.git` of a
      repository named `foo.github.io` (`a` =
      `git@github.com:modular-server-manager/foo`, `b` = `hub.io`) the wiki
      URL is `git@github.com:modular-server-manager/foo.wiki.github.io.wiki.git`,
      not the suffix rewrite. */
  lemma {:induction false} WikiUrlRewritesEveryOccurrence(a: string, b: string)
    requires !Contains(a, GitSuffix) && !Contains(b, GitSuffix)
    ensures WikiUrl(a + GitSuffix + b + GitSuffix) == a + WikiGitSuffix + b + WikiGitSuffix
  {
    WikiUrlOfPlainPrefix(a, b + GitSuffix);
    WikiUrlOfPlainBase(b);
    assert a + GitSuffix + b + GitSuffix == a + GitSuffix + (b + GitSuffix);
  }
}

=== FILE: wrappers.dfy ===
/** The optional value used for a repository's wiki URL, which is either a
    string or absent (Python's `None`). */
module Wrappers {

  datatype Option<+T> = None | Some(value: T)
}
